=== FILE: README.md ===
# Invoice list pipeline — a Dafny model

This project models the invoice page of the admin dashboard
(`InvoiceDisplay`). On every render the page derives the displayed list from
the fetched invoices by

1. **filtering**: an invoice stays when its customer name or invoice number
   contains the search term, ignoring letter case, and, when a date is
   selected, its `createdAt` text begins with that date;
2. **sorting** by creation time, ascending when the sort order is `"asc"` and
   descending otherwise; the sort button toggles the order;
3. **building the report** handed to the PDF library: a title, a
   `Date: …` line, six column headings, one six-cell row per displayed
   invoice, and the file name `invoices_<date or "all">.pdf`.

Modules:

- `Text` (`text.dfy`): ASCII lower-casing, `startsWith`, `includes`, `join`,
  and the decimal rendering of an integer, each with a reference meaning
  (sequence prefix, an occurrence at some offset, a parse-back).
- `Invoices` (`invoices.dfy`): the invoice and line-item records.
- `InvoiceFilter` (`filter.dfy`): the filter predicate and the filter.
- `InvoiceSort` (`sort.dfy`): the comparator, an insertion sort that is
  stable like the JavaScript array sort, the sort-order toggle.
- `InvoiceReport` (`report.dfy`): item text, rows, date line, file name, and
  reading the table back.
- `InvoiceView` (`view.dfy`): the page state, the derived list, the sort
  button, `generatePDF`, and the three worked scenarios (two invoices, no
  filter / search "alice" / date 2024-01-02).

The date filter is the code's plain prefix test on the `createdAt` text
(`startsWith`), not a comparison of calendar days, so a partial date such as
`"2024-01"` would match every invoice of that month and the test depends on
the time zone the timestamp was written in.

## Model

| member | source | states |
|---|---|---|
| Text.LowerChar | admin/src/pages/Invoice/InvoiceDisplay.jsx:32-33 | lower-casing one character never yields a capital; capitals map to the matching small letter, every other character is kept |
| Text.Lower | admin/src/pages/Invoice/InvoiceDisplay.jsx:32-33 | `toLowerCase` keeps the length, lower-cases each character in place and leaves no capital letter |
| Text.LowerIdempotent | admin/src/pages/Invoice/InvoiceDisplay.jsx:32-33 | lower-casing an already lower-cased string changes nothing |
| Text.LowerOfUpper | admin/src/pages/Invoice/InvoiceDisplay.jsx:32-33 | upper-casing before lower-casing gives the same as lower-casing alone |
| Text.StartsWith | admin/src/pages/Invoice/InvoiceDisplay.jsx:34 | the character-by-character `startsWith` holds exactly when the date is a sequence prefix of `createdAt` |
| Text.Contains | admin/src/pages/Invoice/InvoiceDisplay.jsx:32-33 | `includes` as an offset-by-offset search; it holds whenever the needle is a prefix, and only when the needle is no longer than the haystack (see ContainsIff) |
| Text.ContainsIff | admin/src/pages/Invoice/InvoiceDisplay.jsx:32-33 | `includes` holds exactly when the needle occurs at some offset of the haystack |
| Text.ContainsEmpty | admin/src/pages/Invoice/InvoiceDisplay.jsx:32-33 | the empty search term occurs in every string |
| Text.Join | admin/src/pages/Invoice/InvoiceDisplay.jsx:65 | `.join(sep)`: empty for no parts, otherwise it starts with the first part (see JoinAppend, JoinLength) |
| Text.JoinAppend | admin/src/pages/Invoice/InvoiceDisplay.jsx:65 | joining two non-empty lists equals joining each with one separator between |
| Text.JoinLength | admin/src/pages/Invoice/InvoiceDisplay.jsx:65 | a join holds all characters of the parts plus one separator per gap |
| Text.NatToString | admin/src/pages/Invoice/InvoiceDisplay.jsx:65 | a rendered quantity is a non-empty string of digits with no leading zero unless it is "0" |
| Text.NatToStringRoundTrip | admin/src/pages/Invoice/InvoiceDisplay.jsx:65 | parsing the digits of a rendered natural number gives the number back |
| Text.IntToString | admin/src/pages/Invoice/InvoiceDisplay.jsx:65 | a rendered integer starts with '-' exactly when negative and is digits after that, with no leading zero: "0" is the only form starting with '0', and no '0' follows the '-' |
| Text.IntToStringRoundTrip | admin/src/pages/Invoice/InvoiceDisplay.jsx:65 | parsing a rendered integer gives the integer back |
| InvoiceFilter.Matches | admin/src/pages/Invoice/InvoiceDisplay.jsx:32-34 | the filter callback; a kept invoice has a field at least as long as the term and, when a date is selected, that date as a prefix of `createdAt`; with no term and no date every invoice is kept (see MatchesIff) |
| InvoiceFilter.MatchesIff | admin/src/pages/Invoice/InvoiceDisplay.jsx:31-35 | an invoice is kept iff (its lower-cased name or number has an occurrence of the lower-cased term) and (no date is selected or the date is a prefix of `createdAt`) |
| InvoiceFilter.Filter | admin/src/pages/Invoice/InvoiceDisplay.jsx:31-35 | the result is an order-preserving subsequence of the input, every kept invoice matches, and each invoice occurs as often as in the input if it matches and never otherwise |
| InvoiceFilter.FilterEverything | admin/src/pages/Invoice/InvoiceDisplay.jsx:31-35 | empty search term and no date return the input unchanged |
| InvoiceFilter.FilterIgnoresCase | admin/src/pages/Invoice/InvoiceDisplay.jsx:32-33 | two search terms equal up to ASCII case select the same invoices |
| InvoiceFilter.FilterUpperCaseTerm | admin/src/pages/Invoice/InvoiceDisplay.jsx:32-33 | typing the term in capitals selects the same invoices |
| InvoiceFilter.FilterIdempotent | admin/src/pages/Invoice/InvoiceDisplay.jsx:31-35 | filtering a filtered list again with the same parameters changes nothing |
| InvoiceSort.ToggleSortOrder | admin/src/pages/Invoice/InvoiceDisplay.jsx:44-46 | the toggle always yields "asc" or "desc", and "desc" exactly when the order was "asc" |
| InvoiceSort.ToggleTwice | admin/src/pages/Invoice/InvoiceDisplay.jsx:44-46 | on "asc" and "desc" two toggles are the identity |
| InvoiceSort.OrderAfterParity | admin/src/pages/Invoice/InvoiceDisplay.jsx:10 | starting from "asc", after an even number of clicks the order is "asc", after an odd number "desc" |
| InvoiceSort.Compare | admin/src/pages/Invoice/InvoiceDisplay.jsx:41 | the comparator is non-positive exactly when `a` is no later than `b` for "asc", and no earlier for any other order; it is zero exactly on equal instants (see ToggleFlipsCompare, SortInvoices) |
| InvoiceSort.ToggleFlipsCompare | admin/src/pages/Invoice/InvoiceDisplay.jsx:41-45 | toggling any order negates the comparator |
| InvoiceSort.Insert | admin/src/pages/Invoice/InvoiceDisplay.jsx:38-42 | inserting into a sorted list keeps it sorted and adds exactly the one invoice |
| InvoiceSort.SortInvoices | admin/src/pages/Invoice/InvoiceDisplay.jsx:38-42 | the result is a permutation of the input, non-decreasing by instant for "asc" and non-increasing for any other order |
| InvoiceSort.SortStable | admin/src/pages/Invoice/InvoiceDisplay.jsx:38-42 | invoices created at the same instant keep their input order, in either direction |
| InvoiceSort.DescendingIsReversedAscending | admin/src/pages/Invoice/InvoiceDisplay.jsx:38-42 | with pairwise-distinct instants the descending result is the ascending result reversed |
| InvoiceReport.ItemText | admin/src/pages/Invoice/InvoiceDisplay.jsx:65 | one item text starts with the item name and ends with ")" (see ItemQuantityReadable) |
| InvoiceReport.ItemsText | admin/src/pages/Invoice/InvoiceDisplay.jsx:65 | the items cell is "" for no items, exactly the item's text for one item, and otherwise starts with the first item's text; with ItemsTextAppend this fixes the ", "-join of the item texts |
| InvoiceReport.ItemQuantityReadable | admin/src/pages/Invoice/InvoiceDisplay.jsx:65 | an item text is the item name, " (Qty: ", the quantity (which parses back to the item's quantity), ", Price: ", the rendered price and ")" |
| InvoiceReport.ItemsTextEmpty | admin/src/pages/Invoice/InvoiceDisplay.jsx:65 | the items cell is empty exactly when the invoice has no items |
| InvoiceReport.ItemsTextAppend | admin/src/pages/Invoice/InvoiceDisplay.jsx:65 | the items cell of a concatenation is the two cells joined by ", ", so item order is kept |
| InvoiceReport.DateLine | admin/src/pages/Invoice/InvoiceDisplay.jsx:58 | the line starts with "Date: " and continues with the selected date, or "All Dates" when none is selected (see DateLineCollision) |
| InvoiceReport.DateLineCollision | admin/src/pages/Invoice/InvoiceDisplay.jsx:58 | two selected dates give the same date line iff equal or they are "" and "All Dates" |
| InvoiceReport.FileName | admin/src/pages/Invoice/InvoiceDisplay.jsx:78 | the name is "invoices_", then the selected date or "all", then ".pdf" (see FileNameCollision) |
| InvoiceReport.FileNameCollision | admin/src/pages/Invoice/InvoiceDisplay.jsx:78 | two selected dates give the same file name iff equal or they are "" and "all" |
| InvoiceReport.DateInputNamesDistinct | admin/src/pages/Invoice/InvoiceDisplay.jsx:78 | distinct values of the date input (empty, or a year of four or more digits, month and day) give distinct file names and date lines |
| InvoiceReport.Row | admin/src/pages/Invoice/InvoiceDisplay.jsx:62-69 | a row has one cell per heading, reads back to the invoice's number, name, discount and total, and holds the items cell and the formatted date (see ReportReadsBack) |
| InvoiceReport.BuildReport | admin/src/pages/Invoice/InvoiceDisplay.jsx:57-69 | one row per displayed invoice in order, six cells per row under six headings; cells 1, 2, 4, 5 are number, name, discount and total unchanged |
| InvoiceReport.ReportReadsBack | admin/src/pages/Invoice/InvoiceDisplay.jsx:61-69 | reading the table back yields the displayed invoices' number, name, discount and total, in display order |
| InvoiceReport.EmptyReport | admin/src/pages/Invoice/InvoiceDisplay.jsx:56-61 | an empty list still gives the title and six headings, with no rows |
| InvoiceView.DisplayedInvoices | admin/src/pages/Invoice/InvoiceDisplay.jsx:31-42 | the displayed list holds exactly the matching invoices with their multiplicities, ordered by instant in the selected direction |
| InvoiceView.HandleSortChange | admin/src/pages/Invoice/InvoiceDisplay.jsx:44-46 | the sort button changes only the sort order, by the toggle |
| InvoiceView.InitialShowsAll | admin/src/pages/Invoice/InvoiceDisplay.jsx:9-11 | in the initial state every fetched invoice is displayed, earliest first |
| InvoiceView.SortButtonReverses | admin/src/pages/Invoice/InvoiceDisplay.jsx:38-46 | with distinct instants, pressing the sort button reverses the displayed list |
| InvoiceView.GeneratePdf | admin/src/pages/Invoice/InvoiceDisplay.jsx:55-78 | the report has one row per displayed invoice, reads back to them in order, and is saved under the date's file name |
| InvoiceView.ScenarioAscending | admin/src/pages/Invoice/InvoiceDisplay.jsx:31-42 | Alice (2024-01-02) and Bob (2024-01-01), no filter, ascending: Bob then Alice |
| InvoiceView.ScenarioSearch | admin/src/pages/Invoice/InvoiceDisplay.jsx:31-35 | searching "alice" keeps only Alice's invoice |
| InvoiceView.ScenarioDate | admin/src/pages/Invoice/InvoiceDisplay.jsx:31-35 | selecting 2024-01-02 keeps only Alice's invoice |

## Left out

- Fetching the invoices over HTTP and logging a failure (InvoiceDisplay.jsx lines 13-28): I/O; the model takes the fetched list as input.
- Parsing `createdAt` with `new Date` and subtracting dates: each invoice carries an integer `instant` standing for the parsed time; malformed dates (NaN comparisons) are not modelled, and nothing ties `instant` to the `createdAt` text.
- `formatDate` (lines 49-52) and the string form of a price inside the item text: locale- and floating-point-dependent runtime conversions, passed in as the functions of `Renderers`.
- Text.IntToString: renders the exact decimal form of the integer. JavaScript differs in three cases, none of them modelled. Above 2^53 (9007199254740992) it prints the shortest digits that read back to the same Number, so 2^60 prints as "1152921504606847000". From 1e21 upwards it uses exponent notation. It prints non-integer quantities with a fraction.
- Text.Lower: ASCII lower-casing only; `toLowerCase` also folds non-ASCII letters.
- The jsPDF document, `autoTable` coordinates and `doc.save` (lines 56-57, 72-78): a foreign library; only the strings and rows handed to it are modelled.
- The rendered list, the "No invoices available." placeholder, the button caption and the sidebar links (lines 81-149): presentation only.
- `UpdateModal.jsx` (HTTP calls, dialogs, `parseFloat`/`parseInt`, date conversion) and `Footer.jsx` (static markup): not part of this model.

=== FILE: filter.dfy ===
/**
 The `filteredInvoices` step of the invoice page: keep the invoices whose
 customer name or invoice number contains the search term, ignoring ASCII
 letter case, and, when a date is selected, whose `createdAt` text begins with it.
 */
module InvoiceFilter {
  import opened Text
  import opened Invoices

  /** The per-invoice test of the filter callback. */
  predicate Matches(inv: Invoice, searchTerm: string, selectedDate: string): (b: bool)
    ensures b ==> |searchTerm| <= |inv.customerName| || |searchTerm| <= |inv.invoiceNumber|
    ensures b ==> selectedDate == "" || selectedDate <= inv.createdAt
    ensures searchTerm == "" && selectedDate == "" ==> b
  {
    var term := Lower(searchTerm);
    (Contains(Lower(inv.customerName), term) || Contains(Lower(inv.invoiceNumber), term))
    && (selectedDate == "" || StartsWith(inv.createdAt, selectedDate))
  }

  /**
   The same test stated without the search procedures: an occurrence of the
   lower-cased term at some offset of a lower-cased field, and a sequence prefix.
   */
  ghost predicate Wanted(inv: Invoice, searchTerm: string, selectedDate: string) {
    var term := Lower(searchTerm);
    ((exists i :: OccursAt(Lower(inv.customerName), term, i))
     || (exists i :: OccursAt(Lower(inv.invoiceNumber), term, i)))
    && (selectedDate == "" || selectedDate <= inv.createdAt)
  }

  /** The filter keeps an invoice exactly when it is wanted. */
  lemma MatchesIff(inv: Invoice, searchTerm: string, selectedDate: string)
    ensures Matches(inv, searchTerm, selectedDate) <==> Wanted(inv, searchTerm, selectedDate)
  {
    ContainsIff(Lower(inv.customerName), Lower(searchTerm));
    ContainsIff(Lower(inv.invoiceNumber), Lower(searchTerm));
  }

  /** `a` is `b` with some elements removed, the rest in their original order. */
  ghost predicate IsSubsequence<T>(a: seq<T>, b: seq<T>)
    decreases |b|
  {
    |a| == 0
    || (|b| > 0 && ((a[0] == b[0] && IsSubsequence(a[1..], b[1..])) || IsSubsequence(a, b[1..])))
  }

  /**
   `invoices.filter(...)`: the invoices that match, in input order. Each
   invoice occurs in the result exactly as often as in the input when it
   matches, and not at all when it does not.
   */
  function Filter(invoices: seq<Invoice>, searchTerm: string, selectedDate: string): (r: seq<Invoice>)
    ensures IsSubsequence(r, invoices)
    ensures forall i :: 0 <= i < |r| ==> Matches(r[i], searchTerm, selectedDate)
    ensures forall x :: multiset(r)[x] == if Matches(x, searchTerm, selectedDate) then multiset(invoices)[x] else 0
  {
    if |invoices| == 0 then []
    else
      var rest := Filter(invoices[1..], searchTerm, selectedDate);
      assert invoices == [invoices[0]] + invoices[1..];
      if Matches(invoices[0], searchTerm, selectedDate) then [invoices[0]] + rest else rest
  }

  /** An empty search term and no selected date keep every invoice, in order. */
  lemma {:induction false} FilterEverything(invoices: seq<Invoice>)
    ensures Filter(invoices, "", "") == invoices
  {
    if |invoices| > 0 {
      ContainsEmpty(Lower(invoices[0].customerName));
      assert Lower("") == "";
      FilterEverything(invoices[1..]);
    }
  }

  /** Only the lower-cased search term matters. */
  lemma {:induction false} FilterIgnoresCase(invoices: seq<Invoice>, t1: string, t2: string, selectedDate: string)
    requires EqualIgnoringCase(t1, t2)
    ensures Filter(invoices, t1, selectedDate) == Filter(invoices, t2, selectedDate)
  {
    if |invoices| > 0 {
      FilterIgnoresCase(invoices[1..], t1, t2, selectedDate);
    }
  }

  /** Typing the search term in capitals finds the same invoices. */
  lemma FilterUpperCaseTerm(invoices: seq<Invoice>, searchTerm: string, selectedDate: string)
    ensures Filter(invoices, Upper(searchTerm), selectedDate) == Filter(invoices, searchTerm, selectedDate)
  {
    LowerOfUpper(searchTerm);
    FilterIgnoresCase(invoices, Upper(searchTerm), searchTerm, selectedDate);
  }

  /** Filtering an already filtered list with the same parameters changes nothing. */
  lemma {:induction false} FilterIdempotent(invoices: seq<Invoice>, searchTerm: string, selectedDate: string)
    ensures Filter(Filter(invoices, searchTerm, selectedDate), searchTerm, selectedDate)
         == Filter(invoices, searchTerm, selectedDate)
  {
    if |invoices| > 0 {
      FilterIdempotent(invoices[1..], searchTerm, selectedDate);
    }
  }
}

=== FILE: invoices.dfy ===
/**
 The invoice records the page receives from `GET /api/invoice`. The page only
 reads them; nothing here is created, changed or removed.
 */
module Invoices {

  /** One line item: `{name, quantity, price}`. */
  datatype Item = Item(name: string, quantity: int, price: real)

  /**
   An invoice. `createdAt` is the ISO-8601 text as fetched; `instant` is the
   point in time `new Date(createdAt)` denotes, the value the sort compares.
   */
  datatype Invoice = Invoice(
    id: string,
    invoiceNumber: string,
    customerName: string,
    items: seq<Item>,
    discount: real,
    totalAmount: real,
    createdAt: string,
    instant: int
  )
}

=== FILE: report.dfy ===
/**
 The strings and table rows `generatePDF` hands to the PDF library: the title,
 the date-scope line, the six column headings, one row per displayed invoice,
 and the file name. The PDF library itself is not modelled.
 */
module InvoiceReport {
  import opened Text
  import opened Invoices

  /** A table cell: a string, or a number passed through as fetched. */
  datatype Cell = Str(text: string) | Num(value: real)

  /**
   Conversions the page delegates to the JavaScript runtime: the string form
   of a price inside a template literal, and `formatDate` (a locale-dependent
   long calendar date).
   */
  datatype Renderers = Renderers(price: real -> string, date: string -> string)

  /** What the PDF library is given. */
  datatype Report = Report(
    title: string,
    dateLine: string,
    columns: seq<string>,
    rows: seq<seq<Cell>>,
    fileName: string
  )

  const Title: string := "Invoices Report"

  const Columns: seq<string> :=
    ["Invoice Number", "Customer Name", "Items", "Discount", "Total Amount", "Date"]

  /** `${item.name} (Qty: ${item.quantity}, Price: ${item.price})` */
  function ItemText(item: Item, price: real -> string): (r: string)
    ensures item.name <= r
    ensures |r| > |item.name| && r[|r| - 1] == ')'
  {
    item.name + " (Qty: " + IntToString(item.quantity) + ", Price: " + price(item.price) + ")"
  }

  /** The item text is the name, " (Qty: ", the quantity (which reads back), ", Price: ", the price and ")". */
  lemma ItemQuantityReadable(item: Item, price: real -> string)
    ensures var t := ItemText(item, price);
            var q := IntToString(item.quantity);
            && |item.name| + 7 + |q| <= |t|
            && t[..|item.name|] == item.name
            && t[|item.name|..|item.name| + 7] == " (Qty: "
            && t[|item.name| + 7..|item.name| + 7 + |q|] == q
            && t[|item.name| + 7 + |q|..] == ", Price: " + price(item.price) + ")"
            && ParseInt(t[|item.name| + 7..|item.name| + 7 + |q|]) == item.quantity
  {
    var t := ItemText(item, price);
    var q := IntToString(item.quantity);
    var n := |item.name|;
    assert t == item.name + " (Qty: " + q + (", Price: " + price(item.price) + ")");
    assert t[n..n + 7] == " (Qty: ";
    assert t[n + 7..n + 7 + |q|] == q;
    assert t[n + 7 + |q|..] == ", Price: " + price(item.price) + ")";
    IntToStringRoundTrip(item.quantity);
  }

  /** The items cell: every item's text, in item order, joined by ", ". */
  function ItemsText(items: seq<Item>, price: real -> string): (r: string)
    ensures |items| == 0 ==> r == ""
    ensures |items| == 1 ==> r == ItemText(items[0], price)
    ensures |items| > 0 ==> ItemText(items[0], price) <= r
  {
    Join(seq(|items|, i requires 0 <= i < |items| => ItemText(items[i], price)), ", ")
  }

  /** The items cell is empty exactly when the invoice has no items. */
  lemma ItemsTextEmpty(items: seq<Item>, price: real -> string)
    ensures ItemsText(items, price) == "" <==> |items| == 0
  {
  }

  /** The items cell of a longer list extends the cell of a prefix of it. */
  lemma ItemsTextAppend(a: seq<Item>, b: seq<Item>, price: real -> string)
    requires |a| > 0 && |b| > 0
    ensures ItemsText(a + b, price) == ItemsText(a, price) + ", " + ItemsText(b, price)
  {
    var pa := seq(|a|, i requires 0 <= i < |a| => ItemText(a[i], price));
    var pb := seq(|b|, i requires 0 <= i < |b| => ItemText(b[i], price));
    var ab := a + b;
    assert seq(|ab|, i requires 0 <= i < |ab| => ItemText(ab[i], price)) == pa + pb;
    JoinAppend(pa, pb, ", ");
  }

  /** One table row: the six cells of an invoice, in column order. */
  function Row(inv: Invoice, render: Renderers): (r: seq<Cell>)
    ensures |r| == |Columns|
    ensures ReadRow(r) == Some(SummaryOf(inv))
    ensures r[2] == Str(ItemsText(inv.items, render.price))
    ensures r[5] == Str(render.date(inv.createdAt))
  {
    [ Str(inv.invoiceNumber),
      Str(inv.customerName),
      Str(ItemsText(inv.items, render.price)),
      Num(inv.discount),
      Num(inv.totalAmount),
      Str(render.date(inv.createdAt)) ]
  }

  /** `selectedDate || 'All Dates'` */
  function DateScope(selectedDate: string): string {
    if selectedDate == "" then "All Dates" else selectedDate
  }

  /** The second line of the document. */
  function DateLine(selectedDate: string): (r: string)
    ensures "Date: " <= r
    ensures selectedDate != "" ==> r[6..] == selectedDate
    ensures selectedDate == "" ==> r[6..] == "All Dates"
  {
    "Date: " + DateScope(selectedDate)
  }

  /** `invoices_${selectedDate || 'all'}.pdf` */
  function FileName(selectedDate: string): (r: string)
    ensures "invoices_" <= r && |r| >= 13 && r[|r| - 4..] == ".pdf"
    ensures selectedDate != "" ==> r[9..|r| - 4] == selectedDate
    ensures selectedDate == "" ==> r[9..|r| - 4] == "all"
  {
    "invoices_" + (if selectedDate == "" then "all" else selectedDate) + ".pdf"
  }

  /** Two selected dates give the same file name only if equal or they are "" and "all". */
  lemma FileNameCollision(a: string, b: string)
    ensures FileName(a) == FileName(b) <==> a == b || (a == "" && b == "all") || (a == "all" && b == "")
  {
    var ka := if a == "" then "all" else a;
    var kb := if b == "" then "all" else b;
    if FileName(a) == FileName(b) {
      assert FileName(a)[9..|FileName(a)| - 4] == ka;
      assert FileName(b)[9..|FileName(b)| - 4] == kb;
    }
  }

  /** Two selected dates give the same date line only if equal or they are "" and "All Dates". */
  lemma DateLineCollision(a: string, b: string)
    ensures DateLine(a) == DateLine(b) <==> a == b || (a == "" && b == "All Dates") || (a == "All Dates" && b == "")
  {
    if DateLine(a) == DateLine(b) {
      assert DateLine(a)[6..] == DateScope(a);
      assert DateLine(b)[6..] == DateScope(b);
    }
  }

  /** A value a date input can hold: empty, or `yyyy-mm-dd` with four or more year digits. */
  predicate IsDateInputValue(d: string) {
    d == "" || (|d| >= 10 && forall i :: 0 <= i < |d| ==>
                  if i == |d| - 6 || i == |d| - 3 then d[i] == '-' else IsDigit(d[i]))
  }

  /** Different date-input values give different file names and date lines. */
  lemma DateInputNamesDistinct(a: string, b: string)
    requires IsDateInputValue(a) && IsDateInputValue(b)
    requires a != b
    ensures FileName(a) != FileName(b)
    ensures DateLine(a) != DateLine(b)
  {
    FileNameCollision(a, b);
    DateLineCollision(a, b);
  }

  /**
   The body of `generatePDF` before the PDF library: one row per invoice of
   the displayed list, in the displayed order, under the fixed headings.
   */
  function BuildReport(view: seq<Invoice>, selectedDate: string, render: Renderers): (r: Report)
    ensures r.title == Title && r.columns == Columns
    ensures r.dateLine == DateLine(selectedDate) && r.fileName == FileName(selectedDate)
    ensures |r.rows| == |view|
    ensures forall i :: 0 <= i < |view| ==> |r.rows[i]| == |r.columns|
    ensures forall i :: 0 <= i < |view| ==>
              && r.rows[i][0] == Str(view[i].invoiceNumber)
              && r.rows[i][1] == Str(view[i].customerName)
              && r.rows[i][2] == Str(ItemsText(view[i].items, render.price))
              && r.rows[i][3] == Num(view[i].discount)
              && r.rows[i][4] == Num(view[i].totalAmount)
              && r.rows[i][5] == Str(render.date(view[i].createdAt))
  {
    Report(
      Title,
      DateLine(selectedDate),
      Columns,
      seq(|view|, i requires 0 <= i < |view| => Row(view[i], render)),
      FileName(selectedDate))
  }

  /** The fields of an invoice a reader of the table sees verbatim. */
  datatype Summary = Summary(invoiceNumber: string, customerName: string, discount: real, totalAmount: real)

  datatype Option<T> = None | Some(value: T)

  /** Read a six-cell row back; anything else is not a report row. */
  function ReadRow(row: seq<Cell>): Option<Summary> {
    if |row| == 6 && row[0].Str? && row[1].Str? && row[3].Num? && row[4].Num? then
      Some(Summary(row[0].text, row[1].text, row[3].value, row[4].value))
    else None
  }

  /** Read every row back, failing if any row is malformed. */
  function ReadRows(rows: seq<seq<Cell>>): Option<seq<Summary>> {
    if |rows| == 0 then Some([])
    else match (ReadRow(rows[0]), ReadRows(rows[1..]))
      case (Some(s), Some(rest)) => Some([s] + rest)
      case _ => None
  }

  function SummaryOf(inv: Invoice): Summary {
    Summary(inv.invoiceNumber, inv.customerName, inv.discount, inv.totalAmount)
  }

  /** What a reader of the table should find for a list of invoices. */
  function Summaries(view: seq<Invoice>): seq<Summary> {
    seq(|view|, i requires 0 <= i < |view| => SummaryOf(view[i]))
  }

  /** Rows that each read back to the matching invoice read back as a whole. */
  lemma {:induction false} RowsReadBack(rows: seq<seq<Cell>>, view: seq<Invoice>)
    requires |rows| == |view|
    requires forall i :: 0 <= i < |rows| ==> ReadRow(rows[i]) == Some(SummaryOf(view[i]))
    ensures ReadRows(rows) == Some(Summaries(view))
    decreases |rows|
  {
    if |rows| > 0 {
      RowsReadBack(rows[1..], view[1..]);
      assert Summaries(view) == [SummaryOf(view[0])] + Summaries(view[1..]);
    } else {
      assert Summaries(view) == [];
    }
  }

  /** Reading the report's table back yields the displayed invoices, in order. */
  lemma ReportReadsBack(view: seq<Invoice>, selectedDate: string, render: Renderers)
    ensures ReadRows(BuildReport(view, selectedDate, render).rows)
         == Some(Summaries(view))
  {
    var rows := BuildReport(view, selectedDate, render).rows;
    forall i | 0 <= i < |rows|
      ensures ReadRow(rows[i]) == Some(SummaryOf(view[i]))
    {
      assert rows[i] == Row(view[i], render);
    }
    RowsReadBack(rows, view);
  }

  /** An empty list still gives a document with its title and headings, but no rows. */
  lemma EmptyReport(selectedDate: string, render: Renderers)
    ensures BuildReport([], selectedDate, render).rows == []
    ensures BuildReport([], selectedDate, render).title == "Invoices Report"
    ensures |BuildReport([], selectedDate, render).columns| == 6
  {
  }
}

=== FILE: sort.dfy ===
/**
 The `sortedInvoices` step of the invoice page and the sort-order toggle.
 The comparator subtracts the two dates, earlier minus later for "asc" and
 the other way round for every other order value; the array sort places `a`
 before `b` when the comparator is negative and keeps equal elements in their
 input order.
 */
module InvoiceSort {
  import opened Invoices

  /** The order the page starts with. */
  const InitialSortOrder: string := "asc"

  /** `handleSortChange`: "asc" becomes "desc", anything else becomes "asc". */
  function ToggleSortOrder(order: string): (r: string)
    ensures r == "asc" || r == "desc"
    ensures r == "desc" <==> order == "asc"
  {
    if order == "asc" then "desc" else "asc"
  }

  /** Clicking the sort button twice restores a reachable order. */
  lemma ToggleTwice(order: string)
    requires order == "asc" || order == "desc"
    ensures ToggleSortOrder(ToggleSortOrder(order)) == order
  {
  }

  /** The order after `clicks` presses of the sort button. */
  function OrderAfter(clicks: nat): string {
    if clicks == 0 then InitialSortOrder else ToggleSortOrder(OrderAfter(clicks - 1))
  }

  /** An even number of clicks sorts ascending, an odd number descending. */
  lemma {:induction false} OrderAfterParity(clicks: nat)
    ensures OrderAfter(clicks) == if clicks % 2 == 0 then "asc" else "desc"
  {
    if clicks > 0 {
      OrderAfterParity(clicks - 1);
    }
  }

  /** The comparator: `dateA - dateB` for "asc", `dateB - dateA` otherwise. */
  function Compare(order: string, a: Invoice, b: Invoice): (r: int)
    ensures order == "asc" ==> (r <= 0 <==> a.instant <= b.instant)
    ensures order != "asc" ==> (r <= 0 <==> a.instant >= b.instant)
    ensures r == 0 <==> a.instant == b.instant
  {
    if order == "asc" then a.instant - b.instant else b.instant - a.instant
  }

  /** Toggling any order turns the comparator around. */
  lemma ToggleFlipsCompare(order: string, a: Invoice, b: Invoice)
    ensures Compare(ToggleSortOrder(order), a, b) == -Compare(order, a, b)
  {
  }

  /** Every earlier element may stand before every later one. */
  ghost predicate Sorted(order: string, s: seq<Invoice>) {
    forall i, j :: 0 <= i < j < |s| ==> Compare(order, s[i], s[j]) <= 0
  }

  /** Put `x` in front of the first element it may precede. */
  function Insert(order: string, x: Invoice, s: seq<Invoice>): (r: seq<Invoice>)
    requires Sorted(order, s)
    ensures Sorted(order, r)
    ensures multiset(r) == multiset(s) + multiset{x}
  {
    if |s| == 0 then [x]
    else if Compare(order, x, s[0]) <= 0 then [x] + s
    else
      var rest := Insert(order, x, s[1..]);
      assert s == [s[0]] + s[1..];
      KeepsHeadFirst(order, s[0], x, s[1..], rest);
      [s[0]] + rest
  }

  /** A head that may precede `x` and all of `t` may precede any arrangement of them. */
  lemma KeepsHeadFirst(order: string, h: Invoice, x: Invoice, t: seq<Invoice>, rest: seq<Invoice>)
    requires Sorted(order, [h] + t)
    requires Compare(order, x, h) > 0
    requires Sorted(order, rest)
    requires multiset(rest) == multiset(t) + multiset{x}
    ensures Sorted(order, [h] + rest)
  {
    forall j | 0 <= j < |rest|
      ensures Compare(order, h, rest[j]) <= 0
    {
      assert rest[j] in multiset(rest);
      if rest[j] == x {
        assert Compare(order, h, x) == -Compare(order, x, h);
      } else {
        assert rest[j] in multiset(t);
        var k :| 0 <= k < |t| && t[k] == rest[j];
        assert ([h] + t)[0] == h && ([h] + t)[k + 1] == t[k];
      }
    }
    var hr := [h] + rest;
    forall i, j | 0 <= i < j < |hr|
      ensures Compare(order, hr[i], hr[j]) <= 0
    {
      if i > 0 {
        assert hr[i] == rest[i - 1] && hr[j] == rest[j - 1];
      } else {
        assert hr[j] == rest[j - 1];
      }
    }
  }

  /**
   `filteredInvoices.sort(...)`: the same invoices, ordered by instant,
   earliest first for "asc" and latest first for any other order.
   */
  function SortInvoices(order: string, s: seq<Invoice>): (r: seq<Invoice>)
    ensures multiset(r) == multiset(s)
    ensures Sorted(order, r)
    ensures order == "asc" ==> forall i, j :: 0 <= i < j < |r| ==> r[i].instant <= r[j].instant
    ensures order != "asc" ==> forall i, j :: 0 <= i < j < |r| ==> r[i].instant >= r[j].instant
  {
    if |s| == 0 then []
    else
      assert s == [s[0]] + s[1..];
      Insert(order, s[0], SortInvoices(order, s[1..]))
  }

  /** The invoices of `s` created at instant `t`, in the order of `s`. */
  function AtInstant(s: seq<Invoice>, t: int): seq<Invoice> {
    if |s| == 0 then []
    else (if s[0].instant == t then [s[0]] else []) + AtInstant(s[1..], t)
  }

  /** Collecting from a list with a known head: the head, if it qualifies, then the rest. */
  lemma AtInstantCons(h: Invoice, rest: seq<Invoice>, t: int)
    ensures AtInstant([h] + rest, t) == (if h.instant == t then [h] else []) + AtInstant(rest, t)
  {
    assert ([h] + rest)[0] == h && ([h] + rest)[1..] == rest;
  }

  /** Everything `Insert` steps over has a different instant from the inserted invoice. */
  lemma {:induction false} InsertAtInstant(order: string, x: Invoice, s: seq<Invoice>, t: int)
    requires Sorted(order, s)
    ensures AtInstant(Insert(order, x, s), t) == (if x.instant == t then [x] else []) + AtInstant(s, t)
    decreases |s|
  {
    if |s| == 0 {
      AtInstantCons(x, [], t);
    } else if Compare(order, x, s[0]) <= 0 {
      assert Insert(order, x, s) == [x] + s;
      AtInstantCons(x, s, t);
    } else {
      var rest := Insert(order, x, s[1..]);
      InsertAtInstant(order, x, s[1..], t);
      assert Insert(order, x, s) == [s[0]] + rest;
      assert s[0].instant != x.instant;
      AtInstantCons(s[0], rest, t);
      AtInstantCons(s[0], s[1..], t);
      assert [s[0]] + s[1..] == s;
    }
  }

  /**
   The sort is stable: invoices created at the same instant keep their input
   order, whichever direction is selected.
   */
  lemma {:induction false} SortStable(order: string, s: seq<Invoice>, t: int)
    ensures AtInstant(SortInvoices(order, s), t) == AtInstant(s, t)
    decreases |s|
  {
    if |s| > 0 {
      SortStable(order, s[1..], t);
      InsertAtInstant(order, s[0], SortInvoices(order, s[1..]), t);
    }
  }

  /** No two invoices share an instant. */
  ghost predicate DistinctInstants(s: seq<Invoice>) {
    forall i, j :: 0 <= i < j < |s| ==> s[i].instant != s[j].instant
  }

  /** Strictly earliest first. */
  ghost predicate StrictlyAscending(s: seq<Invoice>) {
    forall i, j :: 0 <= i < j < |s| ==> s[i].instant < s[j].instant
  }

  /** `s` read back to front. */
  function Reverse<T>(s: seq<T>): (r: seq<T>)
    ensures |r| == |s|
    ensures forall i :: 0 <= i < |s| ==> r[i] == s[|s| - 1 - i]
  {
    seq(|s|, i requires 0 <= i < |s| => s[|s| - 1 - i])
  }

  /** Reading back to front twice restores the list. */
  lemma ReverseReverse<T>(s: seq<T>)
    ensures Reverse(Reverse(s)) == s
  {
  }

  /** Reversing keeps the elements. */
  lemma {:induction false} ReversePermutes<T>(s: seq<T>)
    ensures multiset(Reverse(s)) == multiset(s)
  {
    if |s| > 0 {
      ReversePermutes(s[1..]);
      assert Reverse(s) == Reverse(s[1..]) + [s[0]];
      assert s == [s[0]] + s[1..];
    }
  }

  /** An element that occurs at two positions occurs at least twice. */
  lemma TwoPositions<T>(s: seq<T>, i: int, j: int)
    requires 0 <= i < j < |s| && s[i] == s[j]
    ensures multiset(s)[s[i]] >= 2
  {
    assert s == s[..j] + s[j..];
    assert s[i] in s[..j];
    assert s[j] in s[j..];
  }

  /** In a list with distinct instants every invoice occurs once. */
  lemma {:induction false} DistinctOnce(s: seq<Invoice>, x: Invoice)
    requires DistinctInstants(s)
    ensures multiset(s)[x] <= 1
  {
    if |s| > 0 {
      DistinctOnce(s[1..], x);
      assert s == [s[0]] + s[1..];
    }
  }

  /** Distinct instants survive reordering and removal of invoices. */
  lemma DistinctSubMultiset(s: seq<Invoice>, t: seq<Invoice>)
    requires multiset(t) <= multiset(s)
    requires DistinctInstants(s)
    ensures DistinctInstants(t)
  {
    forall i, j | 0 <= i < j < |t|
      ensures t[i].instant != t[j].instant
    {
      if t[i] == t[j] {
        TwoPositions(t, i, j);
        DistinctOnce(s, t[i]);
      } else {
        assert t[i] in multiset(t) && t[j] in multiset(t);
        assert t[i] in multiset(s) && t[j] in multiset(s);
        var p :| 0 <= p < |s| && s[p] == t[i];
        var q :| 0 <= q < |s| && s[q] == t[j];
      }
    }
  }

  /** Two strictly ascending arrangements of one collection start alike. */
  lemma SameHead(a: seq<Invoice>, b: seq<Invoice>)
    requires multiset(a) == multiset(b) && |a| > 0
    requires StrictlyAscending(a) && StrictlyAscending(b)
    ensures |b| > 0 && a[0] == b[0]
  {
    assert a[0] in multiset(b);
    var k :| 0 <= k < |b| && b[k] == a[0];
    assert b[0] in multiset(a);
    var m :| 0 <= m < |a| && a[m] == b[0];
    assert a[0].instant <= a[m].instant;
    assert b[0].instant <= b[k].instant;
    assert k == 0;
  }

  /** Removing equal heads leaves equal collections. */
  lemma SameTails(a: seq<Invoice>, b: seq<Invoice>)
    requires multiset(a) == multiset(b) && |a| > 0 && |b| > 0 && a[0] == b[0]
    ensures multiset(a[1..]) == multiset(b[1..])
  {
    assert a == [a[0]] + a[1..];
    assert b == [b[0]] + b[1..];
    assert multiset(a[1..]) == multiset(a) - multiset{a[0]};
    assert multiset(b[1..]) == multiset(b) - multiset{b[0]};
  }

  /** There is only one strictly ascending arrangement of a collection. */
  lemma {:induction false} StrictlyAscendingUnique(a: seq<Invoice>, b: seq<Invoice>)
    requires multiset(a) == multiset(b)
    requires StrictlyAscending(a) && StrictlyAscending(b)
    ensures a == b
    decreases |a|
  {
    assert |a| == |multiset(a)| == |b|;
    if |a| > 0 {
      SameHead(a, b);
      SameTails(a, b);
      StrictlyAscendingUnique(a[1..], b[1..]);
      assert a == [a[0]] + a[1..];
      assert b == [b[0]] + b[1..];
    }
  }

  /**
   When no two invoices share an instant, sorting descending gives exactly
   the ascending result read back to front.
   */
  lemma DescendingIsReversedAscending(s: seq<Invoice>)
    requires DistinctInstants(s)
    ensures SortInvoices("desc", s) == Reverse(SortInvoices("asc", s))
  {
    var up := SortInvoices("asc", s);
    var down := SortInvoices("desc", s);
    DistinctSubMultiset(s, up);
    DistinctSubMultiset(s, down);
    var back := Reverse(down);
    ReversePermutes(down);
    assert StrictlyAscending(back);
    assert StrictlyAscending(up);
    StrictlyAscendingUnique(up, back);
    assert Reverse(back) == down;
  }
}

=== FILE: text.dfy ===
/**
 String helpers the invoice page relies on, restricted to what the page does
 with them: ASCII lower-casing (`toLowerCase`), substring search (`includes`),
 prefix test (`startsWith`), `Array.prototype.join`, and the decimal rendering
 of an integer inside a template literal.
 */
module Text {

  /** True for the 26 ASCII capital letters. */
  predicate IsUpper(c: char) {
    'A' <= c <= 'Z'
  }

  /** ASCII lower-casing of one character; every other character is kept. */
  function LowerChar(c: char): (r: char)
    ensures !IsUpper(r)
    ensures !IsUpper(c) ==> r == c
    ensures IsUpper(c) ==> 'a' <= r <= 'z' && r as int - 'a' as int == c as int - 'A' as int
  {
    if IsUpper(c) then (c as int + 32) as char else c
  }

  /** ASCII upper-casing of one character; used only to state case-insensitivity. */
  function UpperChar(c: char): (r: char)
    ensures !('a' <= r <= 'z')
    ensures !('a' <= c <= 'z') ==> r == c
    ensures 'a' <= c <= 'z' ==> IsUpper(r) && r as int - 'A' as int == c as int - 'a' as int
  {
    if 'a' <= c <= 'z' then (c as int - 32) as char else c
  }

  /** `s.toLowerCase()` for ASCII text. */
  function Lower(s: string): (r: string)
    ensures |r| == |s|
    ensures forall i :: 0 <= i < |s| ==> r[i] == LowerChar(s[i])
    ensures forall i :: 0 <= i < |r| ==> !IsUpper(r[i])
  {
    seq(|s|, i requires 0 <= i < |s| => LowerChar(s[i]))
  }

  /** ASCII upper-casing of a string; the page never upper-cases, this only states case-insensitivity. */
  function Upper(s: string): (r: string)
    ensures |r| == |s|
    ensures forall i :: 0 <= i < |s| ==> r[i] == UpperChar(s[i])
  {
    seq(|s|, i requires 0 <= i < |s| => UpperChar(s[i]))
  }

  /** Lower-casing twice is lower-casing once. */
  lemma LowerIdempotent(s: string)
    ensures Lower(Lower(s)) == Lower(s)
  {
  }

  /** Upper-casing first loses nothing that lower-casing keeps. */
  lemma LowerOfUpper(s: string)
    ensures Lower(Upper(s)) == Lower(s)
  {
  }

  /** Two strings that `toLowerCase` cannot tell apart. */
  predicate EqualIgnoringCase(a: string, b: string) {
    Lower(a) == Lower(b)
  }

  /**
   `s.startsWith(p)`, compared character by character from the front.
   Its meaning is Dafny's sequence-prefix relation.
   */
  predicate StartsWith(s: string, p: string): (b: bool)
    ensures b <==> p <= s
  {
    |p| == 0 || (|s| > 0 && s[0] == p[0] && StartsWith(s[1..], p[1..]))
  }

  /** `needle` occurs in `hay` at offset `i`. */
  ghost predicate OccursAt(hay: string, needle: string, i: int) {
    0 <= i && i + |needle| <= |hay| && hay[i..i + |needle|] == needle
  }

  /**
   `hay.includes(needle)`: try every offset from the front.
   The empty needle occurs in every string.
   */
  predicate Contains(hay: string, needle: string): (b: bool)
    ensures StartsWith(hay, needle) ==> b
    ensures b ==> |needle| <= |hay|
    decreases |hay|
  {
    StartsWith(hay, needle) || (|hay| > 0 && Contains(hay[1..], needle))
  }

  /** The offset-by-offset search finds exactly the occurrences there are. */
  lemma {:induction false} ContainsIff(hay: string, needle: string)
    ensures Contains(hay, needle) <==> exists i :: OccursAt(hay, needle, i)
    decreases |hay|
  {
    if StartsWith(hay, needle) {
      assert OccursAt(hay, needle, 0);
    } else if |hay| > 0 {
      ContainsIff(hay[1..], needle);
      if Contains(hay[1..], needle) {
        var j :| OccursAt(hay[1..], needle, j);
        assert hay[1..][j..j + |needle|] == hay[j + 1..j + 1 + |needle|];
        assert OccursAt(hay, needle, j + 1);
      } else {
        forall i | OccursAt(hay, needle, i)
          ensures false
        {
          if i > 0 {
            assert hay[1..][i - 1..i - 1 + |needle|] == hay[i..i + |needle|];
            assert OccursAt(hay[1..], needle, i - 1);
          }
        }
      }
    } else {
      forall i | OccursAt(hay, needle, i)
        ensures false
      {
      }
    }
  }

  /** The empty string is a substring of every string. */
  lemma ContainsEmpty(hay: string)
    ensures Contains(hay, "")
  {
  }

  /** A string cannot contain a longer one. */
  lemma TooLongNotContained(hay: string, needle: string)
    requires |needle| > |hay|
    ensures !Contains(hay, needle)
  {
  }

  /** `parts.join(sep)`: the parts in order with `sep` between neighbours. */
  function Join(parts: seq<string>, sep: string): (r: string)
    ensures |parts| == 0 ==> r == ""
    ensures |parts| > 0 ==> parts[0] <= r
  {
    if |parts| == 0 then ""
    else if |parts| == 1 then parts[0]
    else parts[0] + sep + Join(parts[1..], sep)
  }

  /** Total length of the parts, separators not counted. */
  function TotalLength(parts: seq<string>): nat {
    if |parts| == 0 then 0 else |parts[0]| + TotalLength(parts[1..])
  }

  /** Joining two non-empty lists is joining each and putting one separator between. */
  lemma {:induction false} JoinAppend(a: seq<string>, b: seq<string>, sep: string)
    requires |a| > 0 && |b| > 0
    ensures Join(a + b, sep) == Join(a, sep) + sep + Join(b, sep)
    decreases |a|
  {
    if |a| == 1 {
      assert (a + b)[1..] == b;
    } else {
      assert (a + b)[1..] == a[1..] + b;
      JoinAppend(a[1..], b, sep);
    }
  }

  /** The joined string holds every character of every part plus one separator per gap. */
  lemma {:induction false} JoinLength(parts: seq<string>, sep: string)
    requires |parts| > 0
    ensures |Join(parts, sep)| == TotalLength(parts) + (|parts| - 1) * |sep|
    decreases |parts|
  {
    if |parts| > 1 {
      var rest := parts[1..];
      JoinLength(rest, sep);
      assert |Join(parts, sep)| == |parts[0]| + |sep| + |Join(rest, sep)|;
      assert (|parts| - 1) * |sep| == |sep| + (|rest| - 1) * |sep|;
    }
  }

  /** A decimal digit character. */
  predicate IsDigit(c: char) {
    '0' <= c <= '9'
  }

  /** The character for digit `d`. */
  function DigitChar(d: nat): (c: char)
    requires d < 10
    ensures IsDigit(c) && c as int - '0' as int == d
  {
    ('0' as int + d) as char
  }

  /** The value of a digit character. */
  function DigitValue(c: char): (d: nat)
    requires IsDigit(c)
    ensures d < 10
  {
    c as int - '0' as int
  }

  /**
   Shortest decimal form of a natural number, as a template literal renders an
   integer-valued Number: no sign, no leading zero except for "0" itself.
   */
  function NatToString(n: nat): (r: string)
    ensures |r| > 0
    ensures forall i :: 0 <= i < |r| ==> IsDigit(r[i])
    ensures r[0] == '0' ==> n == 0 && |r| == 1
    decreases n
  {
    if n < 10 then [DigitChar(n)] else NatToString(n / 10) + [DigitChar(n % 10)]
  }

  /** Value of a string of decimal digits, most significant first. */
  function ParseNat(s: string): nat
    requires forall i :: 0 <= i < |s| ==> IsDigit(s[i])
  {
    if |s| == 0 then 0 else ParseNat(s[..|s| - 1]) * 10 + DigitValue(s[|s| - 1])
  }

  /** Reading the rendered number back gives the number. */
  lemma {:induction false} NatToStringRoundTrip(n: nat)
    ensures ParseNat(NatToString(n)) == n
    decreases n
  {
    var r := NatToString(n);
    if n >= 10 {
      NatToStringRoundTrip(n / 10);
      assert r[..|r| - 1] == NatToString(n / 10);
    }
  }

  /** Decimal form of an integer: a leading '-' for negatives, then `NatToString`. */
  function IntToString(n: int): (r: string)
    ensures |r| > 0
    ensures n < 0 <==> r[0] == '-'
    ensures forall i :: 0 < i < |r| ==> IsDigit(r[i])
    ensures r[0] == '0' ==> |r| == 1
    ensures n < 0 ==> |r| > 1 && r[1] != '0'
  {
    if n < 0 then "-" + NatToString(-n) else NatToString(n)
  }

  /** Inverse of `IntToString` on well-formed input. */
  function ParseInt(s: string): int
    requires |s| > 0
    requires forall i :: 0 < i < |s| ==> IsDigit(s[i])
    requires s[0] == '-' || IsDigit(s[0])
  {
    if s[0] == '-' then -(ParseNat(s[1..]) as int) else ParseNat(s)
  }

  /** Reading the rendered integer back gives the integer. */
  lemma IntToStringRoundTrip(n: int)
    ensures ParseInt(IntToString(n)) == n
  {
    if n < 0 {
      NatToStringRoundTrip(-n);
      assert IntToString(n)[1..] == NatToString(-n);
    } else {
      NatToStringRoundTrip(n);
    }
  }
}

=== FILE: view.dfy ===
/**
 The invoice page as a whole: three pieces of UI state, the list it derives
 from the fetched invoices on every render (filter, then sort), the sort
 button, and the report built from the derived list.
 */
module InvoiceView {
  import opened Text
  import opened Invoices
  import opened InvoiceFilter
  import opened InvoiceSort
  import opened InvoiceReport

  /** `searchTerm`, `selectedDate` and `sortOrder`. */
  datatype ViewState = ViewState(searchTerm: string, selectedDate: string, sortOrder: string)

  /** The state on first render: no search, no date, ascending. */
  const InitialState: ViewState := ViewState("", "", InitialSortOrder)

  /**
   `sortedInvoices`: the matching invoices, each as often as fetched,
   ordered by instant in the direction the state selects.
   */
  function DisplayedInvoices(invoices: seq<Invoice>, st: ViewState): (r: seq<Invoice>)
    ensures forall x :: multiset(r)[x] == if Matches(x, st.searchTerm, st.selectedDate) then multiset(invoices)[x] else 0
    ensures st.sortOrder == "asc" ==> forall i, j :: 0 <= i < j < |r| ==> r[i].instant <= r[j].instant
    ensures st.sortOrder != "asc" ==> forall i, j :: 0 <= i < j < |r| ==> r[i].instant >= r[j].instant
  {
    SortInvoices(st.sortOrder, Filter(invoices, st.searchTerm, st.selectedDate))
  }

  /** The sort button: only the order changes. */
  function HandleSortChange(st: ViewState): (r: ViewState)
    ensures r.searchTerm == st.searchTerm && r.selectedDate == st.selectedDate
    ensures r.sortOrder == ToggleSortOrder(st.sortOrder)
  {
    st.(sortOrder := ToggleSortOrder(st.sortOrder))
  }

  /** On first render every fetched invoice is listed, earliest first. */
  lemma InitialShowsAll(invoices: seq<Invoice>)
    ensures DisplayedInvoices(invoices, InitialState) == SortInvoices("asc", invoices)
  {
    FilterEverything(invoices);
  }

  /** With distinct instants, pressing the sort button reverses the displayed list. */
  lemma SortButtonReverses(invoices: seq<Invoice>, st: ViewState)
    requires st.sortOrder == "asc" || st.sortOrder == "desc"
    requires DistinctInstants(invoices)
    ensures DisplayedInvoices(invoices, HandleSortChange(st)) == Reverse(DisplayedInvoices(invoices, st))
  {
    var shown := Filter(invoices, st.searchTerm, st.selectedDate);
    DistinctSubMultiset(invoices, shown);
    DescendingIsReversedAscending(shown);
    if st.sortOrder == "desc" {
      ReverseReverse(SortInvoices("asc", shown));
    }
  }

  /** `generatePDF`: the report of the list currently displayed. */
  function GeneratePdf(invoices: seq<Invoice>, st: ViewState, render: Renderers): (r: Report)
    ensures |r.rows| == |DisplayedInvoices(invoices, st)|
    ensures r.fileName == FileName(st.selectedDate)
    ensures ReadRows(r.rows) == Some(Summaries(DisplayedInvoices(invoices, st)))
  {
    var shown := DisplayedInvoices(invoices, st);
    ReportReadsBack(shown, st.selectedDate, render);
    BuildReport(shown, st.selectedDate, render)
  }

  const Alice: Invoice := Invoice("1", "INV-1", "Alice", [], 0.0, 0.0, "2024-01-02T00:00:00Z", 1704153600)
  const Bob: Invoice := Invoice("2", "INV-2", "Bob", [], 0.0, 0.0, "2024-01-01T00:00:00Z", 1704067200)

  /** With no search and no date, the earlier invoice comes first. */
  lemma ScenarioAscending()
    ensures DisplayedInvoices([Alice, Bob], InitialState) == [Bob, Alice]
  {
    InitialShowsAll([Alice, Bob]);
  }

  /** Searching "alice" finds only Alice's invoice. */
  lemma ScenarioSearch()
    ensures DisplayedInvoices([Alice, Bob], ViewState("alice", "", "asc")) == [Alice]
  {
    assert Lower("alice") == "alice";
    assert Lower("Alice") == "alice";
    assert StartsWith("alice", "alice");
    assert Matches(Alice, "alice", "");
    assert Lower("Bob") == "bob";
    assert Lower("INV-2") == "inv-2";
    TooLongNotContained("bob", "alice");
    TooLongNotContained("nv-2", "alice");
    assert !StartsWith("inv-2", "alice");
    assert "inv-2"[1..] == "nv-2";
    assert !Matches(Bob, "alice", "");
    assert Filter([Alice, Bob], "alice", "") == [Alice];
  }

  /** Selecting 2024-01-02 finds only the invoice created that day. */
  lemma ScenarioDate()
    ensures DisplayedInvoices([Alice, Bob], ViewState("", "2024-01-02", "asc")) == [Alice]
  {
    DayMatches();
    assert Filter([Bob], "", "2024-01-02") == [];
    assert [Alice, Bob][1..] == [Bob];
    assert Filter([Alice, Bob], "", "2024-01-02") == [Alice];
    assert SortInvoices("asc", [Alice]) == [Alice];
  }

  /** Alice's invoice was created on 2024-01-02, Bob's was not. */
  lemma DayMatches()
    ensures Matches(Alice, "", "2024-01-02")
    ensures !Matches(Bob, "", "2024-01-02")
  {
  }
}
